=== FILE: README.md ===
# Offline pipeline of the UZIO documentation assistant, modelled in Dafny

This project models the three offline batch stages. Together they turn the product's Word documents into a searchable collection of passages.

- **Extraction** (`extractor.py`) reads each document that exists:
  - It saves every image relationship it can read and write as `processed_data/images/{doc}_img_{i}.png`. A relationship whose image data cannot be read or whose file cannot be written is skipped.
  - It walks the body in reading order. Each non-blank paragraph becomes a `text` record holding the trimmed text. Each table with any non-blank serialised row becomes a `table` record: the stripped cells of a row are joined by `" | "` and the rows by newlines.
  - Finally it appends one `image` record for every file in the images directory whose name starts with the document name.
- **Enrichment** (`processor.py`, `process_data`) copies each record and may change three things:
  - An image with an existing file gets a description from the vision model. The call gets three attempts, and the fixed text `Error generating description.` is used when all three raise. The content becomes the description plus the original content.
  - An image without a usable file gets `[MISSING IMAGE]` as its content.
  - A text record longer than 100 characters gets model-generated questions. The prompt uses the first 4000 characters of its content.
  - The whole output so far is written after every 50th item, and once more at the end.
- **Indexing** (`indexer.py`, `build_index`) turns each enriched record into one document:
  - Its text is the content, followed by the generated questions under a `Related Questions:` label.
  - Its metadata holds `source`, `type` and, for images, `image_path`. Hand-written records use `file_name` and `section_title` as fallbacks for the first two.

How the model is organised:
- **Records.** JSON records are `Items.Item` values. Each key is an `Option`, and `None` stands for an absent key.
- **Outside world as inputs.** The model, the file system and the directory listing are parameters (`Enricher.Services`, `Extractor.SourceFile`):
  - a description oracle indexed by item and attempt;
  - a question oracle indexed by item and prompt;
  - an image-existence predicate;
  - the listing of the images directory per document.
- **Strings.** Strings are Python strings, i.e. sequences of code points. The `Text` module models Python's `str.strip`, `sep.join`, `str.split` and `str(n)`. The `Paths` module models POSIX `os.path.basename`, the root half of `os.path.splitext` and `os.path.join`.

Modules: `Basics` (Option, Result), `Text`, `Paths`, `Items`, `Extractor`, `Enricher`, `Indexer`, and `Pipeline` (lemmas across stage boundaries).

Behaviour a reader might not expect, which the model follows as written:
- After three failed captioning attempts, the fixed failure text becomes the record's `image_description`. It is not the record's content: the content is the usual `[IMAGE DESCRIPTION] …\n[ORIGINAL FILE] …` composite built around that text.
- Question generation is not retried. One failed call stores the empty string.
- A record without a `type` key (or an image with an existing file but no `content` key) raises `KeyError`. That aborts the enrichment run. Only the checkpoints written before that point survive (`Enrichment.Aborted`).
- There is no resume from a checkpoint. Every run starts from the extraction output.

## Model

| member | source | states |
|---|---|---|
| Paths.LastIndexOf | extractor.py:66 | the result is -1 or a position holding the character, and no later position holds it |
| Paths.Basename | extractor.py:66 | the base name contains no `/` and is a suffix of the path |
| Paths.BasenameAfterLastSlash | extractor.py:66 | the base name starts right after the last `/`: it is the whole path, or it is preceded by a slash |
| Paths.SplitextRoot | extractor.py:66 | the root with the extension removed is a prefix of the path |
| Paths.SplitextRootCutsExtension | extractor.py:66 | the root is the whole path, or it stops at a dot that is followed by no dot or slash and is preceded in its path component by a non-dot character |
| Paths.SplitextCutsWhenExtension | extractor.py:66 | conversely, when the last path component has a dot preceded there by a non-dot character, the extension is removed: the root is the path up to its last dot |
| Extractor.DocName | extractor.py:66 | a document name never contains a space or a slash |
| Extractor.DocNameOfDocx | extractor.py:66 | for a plain file name `stem.docx` the document name is the stem with spaces replaced by underscores |
| Extractor.SplitextRootOfDocx | extractor.py:66 | removing the extension of `stem.docx` gives back the stem when the stem is not all dots |
| Extractor.IterBlockItems | extractor.py:20-37 | iterating a document body yields only paragraphs and tables, never more children than the body has |
| Extractor.IterBlockItemsAppend | extractor.py:33-37 | iteration distributes over concatenated bodies, so the order of blocks is the order of the body |
| Extractor.IterBlockItemsKeepsBlocks | extractor.py:33-37 | a body made only of paragraphs and tables is yielded unchanged, in order |
| Extractor.ParagraphRecord | extractor.py:81-88 | a paragraph yields a record exactly when its text is not blank, and the record holds the stripped text, whose characters all come from the paragraph |
| Extractor.RowBlank | extractor.py:92-94 | a row serialises to blank text exactly when it has at most one cell and that cell is blank |
| Extractor.TableKept | extractor.py:89-101 | a table yields a record exactly when some row is not blank, and the record holds the serialised table |
| Extractor.TableLines | extractor.py:91-95 | when no cell contains a line break, the table text splits back into one line per row, in row order |
| Extractor.TwoRows | extractor.py:95 | a two-row table is the first row's text, a newline, and the second row's text |
| Extractor.RowOfTwo | extractor.py:93-94 | two trimmed cells serialise as the first cell, the bar separator and the second cell, unchanged |
| Extractor.TwoByTwo | extractor.py:91-95 | a table of two rows of two trimmed cells is each row's cells around the bar separator, the two rows on separate lines |
| Extractor.TableExample | extractor.py:91-95 | the table with rows A, B and C, empty serialises to two lines, the second ending in the bar separator followed by nothing |
| Extractor.BlockRecords | extractor.py:80-101 | block records number at most the blocks, carry the document name and are never images |
| Extractor.BlockRecordsAppend | extractor.py:80-101 | records of concatenated blocks are the concatenated records, so block order is kept |
| Extractor.TextRecords | extractor.py:77-101 | text and table records number at most the body's children, carry the document name and are never images |
| Extractor.TextRecordsAppend | extractor.py:80-101 | text records of a concatenated body are the concatenated records |
| Extractor.TextRecordsOfChild | extractor.py:80-101 | a single child yields its own block record, and a child that is neither paragraph nor table yields nothing |
| Extractor.ImageFileName | extractor.py:50 | every saved image file name starts with the document name |
| Extractor.ImageFileNamesDistinct | extractor.py:45-50 | distinct relationship positions give distinct image file names |
| Extractor.ExtractImages | extractor.py:39-63 | an id is in the image map exactly when some relationship with that id targets an image and its file was written, and it maps to the file name of such a relationship |
| Extractor.ExtractImagesByIndex | extractor.py:45-60 | with distinct ids, the saved image relationship at position i maps to `{doc}_img_{i}.png` |
| Extractor.ImageRecordPath | extractor.py:106-112 | an image record points at `processed_data/images/<name>` and its content is `Image File: <name>` |
| Extractor.ImageRecords | extractor.py:105-112 | image records number at most the listed files, carry the document name and are all images |
| Extractor.ImageRecordsAppend | extractor.py:105-112 | image records of a concatenated listing are the records of each part in order, so listing order is kept and nothing is added or dropped |
| Extractor.ImageRecordsOfFile | extractor.py:105-112 | one listed file yields exactly its image record when its name starts with the document name, and nothing otherwise |
| Extractor.ImageRecordsIff | extractor.py:105-112 | a file gets an image record exactly when it is listed and its name starts with the document name |
| Extractor.ProcessDocx | extractor.py:65-114 | every record of a document carries its document name, and there are at most as many records as body children plus listed files |
| Extractor.ImagesComeLast | extractor.py:103-112 | within a document's records, everything after an image record is an image record |
| Extractor.SavedImagesAreRecorded | extractor.py:74-112 | an image saved by the extraction step and present in the listing is recorded for its document |
| Extractor.ExtractAllProvenance | extractor.py:116-130 | every record of the batch carries the document name of a file of the list that exists |
| Extractor.ExtractAllAppend | extractor.py:125-128 | the batch output is the concatenation of the per-file outputs in list order |
| Extractor.ExtractAllSkipsMissing | extractor.py:125-130 | a missing file contributes nothing to the batch |
| Text.Strip | extractor.py:82 | stripping never lengthens the text, gives the empty string exactly for blank text, and otherwise leaves no whitespace at either end |
| Text.StripSplits | extractor.py:82 | the original text is whitespace, the stripped text, then whitespace |
| Text.StripIdempotent | extractor.py:93 | stripping twice is stripping once |
| Text.AllSpaceJoin | extractor.py:94-96 | a join is blank exactly when every part is blank and, with two parts or more, the separator is blank |
| Text.SplitJoin | indexer.py:52-53 | splitting a newline join gives back the parts when no part contains a newline |
| Text.Decimal | extractor.py:50 | the printed index is a non-empty string of decimal digits with no leading zero |
| Text.DecimalRoundTrip | extractor.py:50 | parsing the printed index gives the index back |
| Text.DecimalInjective | extractor.py:50 | distinct indices print differently |
| Text.ReplaceChar | extractor.py:66 | replacing keeps the length and changes exactly the occurrences of the replaced character |
| Enricher.DescribeFrom | processor.py:33-48 | the first attempt that responds gives the description; when every remaining attempt raises, the result is the failure text |
| Enricher.Describe | processor.py:33-48 | the first of three attempts that responds gives the description, and three raised attempts give `Error generating description.` |
| Enricher.DescribeImage | processor.py:33-48 | the retry loop makes one to three attempts, makes another only after one raised, and returns the first response or the failure text after the third failure |
| Enricher.QuestionPrompt | processor.py:59-65 | the prompt is the fixed head, at most 4000 characters of content and the fixed tail; it starts with the head and ends with the tail |
| Enricher.PromptHoldsPrefix | processor.py:64 | the prompt embeds exactly the first min(len, 4000) characters of the content |
| Enricher.PromptIgnoresBeyondLimit | processor.py:64 | content beyond the first 4000 characters does not change the prompt |
| Enricher.GenerateQuestions | processor.py:54-70 | the questions are the reply to the content's prompt, or the empty string when the call raises |
| Enricher.EnrichItem | processor.py:84-106 | an item fails exactly when it has no `type`, or when it is an image with an existing file and no `content` (naming the missing key); otherwise only content, description and questions may change |
| Enricher.EnrichDescribedImage | processor.py:89-95 | an image with an existing file gets the description and content `[IMAGE DESCRIPTION] d\n[ORIGINAL FILE] original`, and no questions |
| Enricher.EnrichAfterThreeFailures | processor.py:89-95 | after three failed description attempts the item still succeeds, with the failure text as its description |
| Enricher.EnrichMissingImage | processor.py:96-97 | an image without a truthy, existing path gets `[MISSING IMAGE]` as content and nothing else |
| Enricher.QuestionsIff | processor.py:99-106 | questions are added exactly to text items whose content is longer than 100 characters, and they are the reply to that content's prompt |
| Enricher.PassThrough | processor.py:84-108 | non-image items that do not qualify for questions are output unchanged |
| Enricher.Snapshots | processor.py:110-114 | a run writes one snapshot per 50 items, the k-th being the first 50(k+1) output items |
| Enricher.Checkpoints | processor.py:110-120 | the writes of a completed run are the periodic snapshots followed by the full output |
| Enricher.StepSpec | processor.py:84-120 | from any point of the loop, the run completes with every item enriched in order, or aborts at the first failing item with the items before it processed and snapshotted |
| Enricher.ProcessData | processor.py:72-120 | a missing input file yields no run; otherwise the run completes with one enriched item per input, in order, and the checkpoint writes, or aborts at the first failing item; a run where no item fails completes |
| Enricher.OutputKeepsIdentity | processor.py:86 | every output item keeps all keys of its input item except content, description and questions |
| Enricher.CheckpointCadence | processor.py:110-120 | a 120-item run writes 50, then 100, then all 120 items |
| Enricher.AbortLosesLessThanInterval | processor.py:110-114 | an aborted run has written all of its processed items except fewer than 50 |
| Indexer.FirstPresent | indexer.py:38-39 | the fallback chain gives the first present value, or the default when none is present |
| Indexer.SourceOf | indexer.py:38 | the source metadata is `source`, else `file_name`, else `Unknown File` |
| Indexer.TypeOf | indexer.py:39 | the type metadata is `type`, else `section_title`, else `Section` |
| Indexer.Payload | indexer.py:37-55 | the payload starts with the content (empty when absent), is exactly the content without questions, and otherwise continues with the label and the questions |
| Indexer.Metadata | indexer.py:42-47 | the metadata keys are exactly `source` and `type`, plus `image_path` when the record has one, with the fallback values |
| Indexer.Documents | indexer.py:35-58 | there is one document per record, in record order |
| Indexer.BuildIndex | indexer.py:18-58 | nothing is built when the enriched file is missing; otherwise there is exactly one document per record, in order |
| Indexer.HandWrittenMetadata | indexer.py:36-39 | a hand-written record is described by its `file_name` and `section_title` |
| Indexer.ListedQuestionsRecoverable | indexer.py:49-55 | listed questions without line breaks can be split back out of the payload after the label |
| Pipeline.ToItem | extractor.py:84-112 | a record read back from the extraction output has source, type and content, and an image path exactly when it is an image |
| Pipeline.ToItems | extractor.py:132-135 | the extraction output is read back one item per record, in order |
| Pipeline.ExtractedRecordsComplete | processor.py:89-102 | enriching extraction output never aborts, because extracted records always carry `type` and `content` |
| Pipeline.IndexProvenance | indexer.py:38-47 | the k-th indexed document of an extraction batch carries exactly the source, type and image path of the k-th extracted record |
| Pipeline.ShortRecordsIndexedVerbatim | processor.py:99-106 | a table record, and a text record of at most 100 characters, reach the index with their extracted content as the whole text |
| Pipeline.IndexedSourcesAreDocuments | indexer.py:38-47 | every document indexed from an extraction batch names the document of one of the batch's existing files as its source |

## Left out

- The serving side (`app.py`) is not part of this model: the chat interface, retrieval and answer generation. So are `append_data.py` and `check_models.py`.
- Parsing of the `.docx` package is not modelled. A document is given as its body children and its relationships. The relationship's `saved` flag stands for whether writing its image file succeeded. A file that python-docx cannot open raises out of `main` and ends the batch; the model does not represent that failure.
- The fixed list of three document file names in `main` is not a constant of the model. `Extractor.ExtractAll` takes any list of files, each either missing or present.
- `iter_block_items` is modelled for a document parent only. The cell and row parents are never used by the pipeline, and neither is the `ValueError` branch for other parents.
- The directory listing of the images directory is an input, in the order `os.listdir` returns. The images are therefore not tied to the relationships of the same run: the listing may also hold files from earlier runs.
- Extractor.ImageRecords: a file is matched by `startswith(doc_name)`, so another document whose name extends this one (`Guide` and `Guide_2`) shares its image records. This is stated, not corrected.
- File writes are not modelled. That covers the image bytes, the JSON outputs, the checkpoint files and a file left partially written when a write raises. The checkpoints are returned as the list of snapshots written, in order.
- Printing, `time.sleep` throttling and the two-second retry delay are not modelled. The API key check at import time is not modelled either.
- Enricher.DescribeImage: the outer `except` returning `Error processing image.` is not modelled. It is only reachable when printing or sleeping raises.
- The model calls, embedding and the vector store are not modelled. The model calls are replaced by oracles in `Enricher.Services`, and `Indexer.BuildIndex` returns the documents handed to the embedder. The Chroma collection and its persistence are not modelled.
- JSON `null` is not distinguished from an absent key. The extractor never writes `null`, and `None` stands for absent. Keys of hand-written records other than the eight in `Items.Item` (for example `image_descriptions`) pass through untouched in the source and are not represented.
- Indexer.Payload: a `generated_questions` value that is neither a string nor a list (Python would `str()` it) is not representable. `Items.Questions` has only those two shapes.

=== FILE: basics.dfy ===
/** Small failure-carrying datatypes shared by every stage of the pipeline. */
module Basics {

  /** A value that may be absent: an optional JSON key, a failed model call. */
  datatype Option<T> = None | Some(value: T) {

    /** The value, or `default` when absent (Python's `dict.get(key, default)`). */
    function GetOr(default: T): T {
      match this
      case Some(v) => v
      case None => default
    }
  }

  /** The outcome of a step that may raise: `Err` carries what went wrong. */
  datatype Result<T, E> = Ok(value: T) | Err(error: E)

  function Min(a: int, b: int): int {
    if a <= b then a else b
  }
}

=== FILE: enricher.dfy ===
/**
  The content enricher (processor.py). Each extracted record is copied; an
  image record gets a model-written description (with up to three attempts)
  folded into its content, or is marked missing; a long text record gets
  model-written questions. The run writes the accumulated output every 50
  items and once more at the end.

  The model is an oracle: `describe(i, k)` is the outcome of the `k`-th
  description attempt for item `i`, and `ask(i, prompt)` the reply to the
  question prompt for item `i` (`None` when the call raises). Whether an
  image file exists is the predicate `imageExists`. Writes are returned as
  the sequence of snapshots written, in order.
*/
module Enricher {
  import opened Basics
  import opened Text
  import opened Items

  const MaxAttempts: nat := 3
  const DescriptionFailed := "Error generating description."
  const MissingImage := "[MISSING IMAGE]"
  const QuestionThreshold: nat := 100
  const PromptLimit: nat := 4000
  const CheckpointInterval: nat := 50

  /** The outcome of one model call. */
  datatype Attempt = Responded(text: string) | Raised

  /** The external collaborators of the run. */
  datatype Services = Services(
    imageExists: string -> bool,
    describe: (nat, nat) -> Attempt,
    ask: (nat, string) -> Option<string>)

  /** The description loop from attempt `k` on: the text of the first
      attempt that responds, or the failure string once all attempts up to
      the third have raised. */
  function DescribeFrom(call: nat -> Attempt, k: nat): (r: string)
    requires k <= MaxAttempts
    ensures (forall j :: k <= j < MaxAttempts ==> call(j).Raised?) ==> r == DescriptionFailed
    ensures forall j | k <= j < MaxAttempts && call(j).Responded?
                       && (forall i :: k <= i < j ==> call(i).Raised?) :: r == call(j).text
    decreases MaxAttempts - k
  {
    if k == MaxAttempts then DescriptionFailed
    else match call(k)
      case Responded(t) => t
      case Raised => DescribeFrom(call, k + 1)
  }

  /** `generate_image_description`: the first successful text among three
      attempts, or `"Error generating description."`. */
  function Describe(call: nat -> Attempt): (r: string)
    ensures (forall j :: 0 <= j < MaxAttempts ==> call(j).Raised?) ==> r == DescriptionFailed
    ensures forall j | 0 <= j < MaxAttempts && call(j).Responded?
                       && (forall i :: 0 <= i < j ==> call(i).Raised?) :: r == call(j).text
  {
    DescribeFrom(call, 0)
  }

  /** The retry loop as written, also reporting how many calls it made: at
      least one and at most three, every call but the last raised, and the
      last one either responded or was the third. */
  method DescribeImage(call: nat -> Attempt) returns (description: string, attempts: nat)
    ensures 1 <= attempts <= MaxAttempts
    ensures forall j :: 0 <= j < attempts - 1 ==> call(j).Raised?
    ensures call(attempts - 1).Responded? ==> description == call(attempts - 1).text
    ensures call(attempts - 1).Raised? ==> attempts == MaxAttempts && description == DescriptionFailed
    ensures description == Describe(call)
  {
    attempts := 0;
    while attempts < MaxAttempts
      invariant attempts <= MaxAttempts
      invariant forall j :: 0 <= j < attempts ==> call(j).Raised?
      invariant DescribeFrom(call, attempts) == Describe(call)
    {
      var outcome := call(attempts);
      attempts := attempts + 1;
      if outcome.Responded? {
        description := outcome.text;
        return;
      }
    }
    description := DescriptionFailed;
  }

  const PromptHead :=
    "\n        Read the following text and generate 3 potential questions a user might ask that can be answered by this text.\n        Format the output as a simple list of questions string.\n        \n        Text:\n        "

  /** The prompt template continues after the content with what reads like
      a Python comment but sits inside the string literal, so it is sent. */
  const PromptTail :=
    " # Truncate to avoid context limit if somehow massive, though chunks should be small.\n        "

  /** The question prompt: the template around the first 4000 characters of
      the content. */
  function QuestionPrompt(content: string): (p: string)
    ensures |p| == |PromptHead| + Min(|content|, PromptLimit) + |PromptTail|
    ensures PromptHead <= p
    ensures p[|p| - |PromptTail|..] == PromptTail
  {
    PromptHead + Truncate(content, PromptLimit) + PromptTail
  }

  /** The prompt carries the content's first `min(len, 4000)` characters,
      right after the template head. */
  lemma PromptHoldsPrefix(content: string)
    ensures var n := Min(|content|, PromptLimit);
            QuestionPrompt(content)[|PromptHead|..|PromptHead| + n] == content[..n]
  {
    var n := Min(|content|, PromptLimit);
    var t := Truncate(content, PromptLimit);
    assert t == content[..n];
    assert (PromptHead + t + PromptTail)[|PromptHead|..|PromptHead| + n] == t;
  }

  /** Characters past the 4000th never reach the model. */
  lemma PromptIgnoresBeyondLimit(a: string, b: string)
    requires |a| >= PromptLimit
    ensures QuestionPrompt(a + b) == QuestionPrompt(a)
  {
    assert Truncate(a + b, PromptLimit) == Truncate(a, PromptLimit) by {
      assert (a + b)[..PromptLimit] == a[..PromptLimit];
    }
  }

  /** `generate_synthetic_questions`: the model's reply to the prompt, or
      the empty string when the call raises. */
  function GenerateQuestions(content: string, ask: string -> Option<string>): (q: string)
    ensures ask(QuestionPrompt(content)).None? ==> q == ""
    ensures ask(QuestionPrompt(content)).Some? ==> q == ask(QuestionPrompt(content)).value
  {
    ask(QuestionPrompt(content)).GetOr("")
  }

  /** Python truthiness of an optional string: present and non-empty. */
  predicate Truthy(p: Option<string>) {
    p.Some? && p.value != ""
  }

  /** The content of a described image. */
  function ImageContent(description: string, original: string): string {
    "[IMAGE DESCRIPTION] " + description + "\n[ORIGINAL FILE] " + original
  }

  /** Whether the image branch calls the model: the item is an image whose
      path is set, non-empty and exists. */
  predicate DescribesImage(item: Item, env: Services) {
    item.typeTag == Some("image") && Truthy(item.imagePath) && env.imageExists(item.imagePath.value)
  }

  /** Step 1 of an item: captioning. An image with a usable path gets its
      description, and its content becomes the description plus a reference
      to the original content; any other image is marked missing. Reading
      the original content raises when the key is absent. */
  function Caption(i: nat, item: Item, env: Services): Result<Item, string>
    requires item.typeTag.Some?
  {
    if item.typeTag.value != "image" then Ok(item)
    else if DescribesImage(item, env) then
      match item.content
      case None => Err("content")
      case Some(original) =>
        var d := Describe((k: nat) => env.describe(i, k));
        Ok(item.(imageDescription := Some(d), content := Some(ImageContent(d, original))))
    else Ok(item.(content := Some(MissingImage)))
  }

  /** Whether step 2 asks for questions: a text item whose (captioned)
      content is longer than 100 characters. */
  predicate AsksQuestions(typeTag: string, captioned: Item) {
    |captioned.content.GetOr("")| > QuestionThreshold && typeTag == "text"
  }

  /** One iteration of the loop of `process_data` on item `i`: a copy of the
      item, captioned and given questions, or the key whose absence raised. */
  function EnrichItem(i: nat, item: Item, env: Services): (r: Result<Item, string>)
    ensures r.Err? <==> item.typeTag.None? || (DescribesImage(item, env) && item.content.None?)
    ensures r.Err? ==> r.error == (if item.typeTag.None? then "type" else "content")
    ensures r.Ok? ==> SameExceptEnrichment(item, r.value)
  {
    match item.typeTag
    case None => Err("type")
    case Some(t) =>
      match Caption(i, item, env)
      case Err(key) => Err(key)
      case Ok(captioned) =>
        if AsksQuestions(t, captioned) then
          var qs := GenerateQuestions(captioned.content.GetOr(""), (p: string) => env.ask(i, p));
          Ok(captioned.(generatedQuestions := Some(Raw(qs))))
        else Ok(captioned)
  }

  /** An image with an existing file and content is described: its
      description is stored, its content is the description followed by the
      original content, and it gets no questions. */
  lemma EnrichDescribedImage(i: nat, item: Item, env: Services)
    requires DescribesImage(item, env) && item.content.Some?
    ensures var d := Describe((k: nat) => env.describe(i, k));
            var r := EnrichItem(i, item, env);
            && r.Ok?
            && r.value.imageDescription == Some(d)
            && r.value.content == Some("[IMAGE DESCRIPTION] " + d + "\n[ORIGINAL FILE] " + item.content.value)
            && r.value.generatedQuestions == item.generatedQuestions
  {
  }

  /** Three failed attempts leave the failure string as the description, and
      the item still succeeds. */
  lemma EnrichAfterThreeFailures(i: nat, item: Item, env: Services)
    requires DescribesImage(item, env) && item.content.Some?
    requires forall k :: 0 <= k < MaxAttempts ==> env.describe(i, k).Raised?
    ensures EnrichItem(i, item, env).Ok?
    ensures EnrichItem(i, item, env).value.imageDescription == Some(DescriptionFailed)
  {
    var call := (k: nat) => env.describe(i, k);
    assert forall k :: 0 <= k < MaxAttempts ==> call(k).Raised?;
  }

  /** An image without a usable path is marked missing and not described. */
  lemma EnrichMissingImage(i: nat, item: Item, env: Services)
    requires item.typeTag == Some("image") && !DescribesImage(item, env)
    ensures EnrichItem(i, item, env) == Ok(item.(content := Some(MissingImage)))
  {
  }

  /** Questions are added exactly to text items whose content is longer than
      100 characters (exactly 100 does not qualify); tables and images never
      get them. The questions are the reply to that content's prompt. */
  lemma QuestionsIff(i: nat, item: Item, env: Services)
    requires item.typeTag.Some? && item.generatedQuestions.None?
    requires EnrichItem(i, item, env).Ok?
    ensures EnrichItem(i, item, env).value.generatedQuestions.Some?
            <==> item.typeTag.value == "text" && |item.content.GetOr("")| > QuestionThreshold
    ensures EnrichItem(i, item, env).value.generatedQuestions.Some? ==>
              EnrichItem(i, item, env).value.generatedQuestions
                == Some(Raw(GenerateQuestions(item.content.value, (p: string) => env.ask(i, p))))
  {
    var t := item.typeTag.value;
    if t != "image" {
      assert Caption(i, item, env) == Ok(item);
    } else {
      assert !AsksQuestions(t, Caption(i, item, env).value);
    }
  }

  /** Items that need no enrichment (tables, short text, any other type)
      pass through unchanged. */
  lemma PassThrough(i: nat, item: Item, env: Services)
    requires item.typeTag.Some? && item.typeTag.value != "image"
    requires !(item.typeTag.value == "text" && |item.content.GetOr("")| > QuestionThreshold)
    ensures EnrichItem(i, item, env) == Ok(item)
  {
  }

  /** The snapshots taken during a run that produced `out`: after every
      50th item, the whole output so far. */
  function Snapshots(out: seq<Item>): (w: seq<seq<Item>>)
    ensures |w| == |out| / CheckpointInterval
    ensures forall k :: 0 <= k < |w| ==> |w[k]| == CheckpointInterval * (k + 1) && w[k] <= out
  {
    seq(|out| / CheckpointInterval,
        k requires 0 <= k < |out| / CheckpointInterval => out[..CheckpointInterval * (k + 1)])
  }

  /** Every write of a completed run: the snapshots, then the final write. */
  function Checkpoints(out: seq<Item>): (w: seq<seq<Item>>)
    ensures |w| == |out| / CheckpointInterval + 1
    ensures w[|w| - 1] == out
  {
    Snapshots(out) + [out]
  }

  /** The result of a run of `process_data`. `Aborted` is a record whose
      missing key raised: the run stops there, keeping whatever it wrote. */
  datatype Enrichment =
    | InputMissing
    | Completed(output: seq<Item>, writes: seq<seq<Item>>)
    | Aborted(at: nat, key: string, processed: seq<Item>, writes: seq<seq<Item>>)

  /** The loop of `process_data` from item `i` on, with the enriched items
      `done` so far and the snapshots `writes` so far. */
  function Step(i: nat, data: seq<Item>, env: Services, done: seq<Item>, writes: seq<seq<Item>>): Enrichment
    requires |done| == i <= |data|
    decreases |data| - i
  {
    if i == |data| then Completed(done, writes + [done])
    else match EnrichItem(i, data[i], env)
      case Err(key) => Aborted(i, key, done, writes)
      case Ok(item) =>
        var done' := done + [item];
        Step(i + 1, data, env, done',
             if (i + 1) % CheckpointInterval == 0 then writes + [done'] else writes)
  }

  lemma IntervalStep(n: nat)
    ensures (n + 1) % CheckpointInterval == 0 ==>
              (n + 1) / CheckpointInterval == n / CheckpointInterval + 1
    ensures (n + 1) % CheckpointInterval != 0 ==>
              (n + 1) / CheckpointInterval == n / CheckpointInterval
  {
  }

  lemma SnapshotsSnoc(done: seq<Item>, x: Item)
    ensures Snapshots(done + [x])
            == if (|done| + 1) % CheckpointInterval == 0 then Snapshots(done) + [done + [x]]
               else Snapshots(done)
  {
    var n := |done|;
    var a, b := Snapshots(done + [x]), Snapshots(done);
    IntervalStep(n);
    forall k | 0 <= k < |b|
      ensures a[k] == b[k]
    {
      assert (done + [x])[..CheckpointInterval * (k + 1)] == done[..CheckpointInterval * (k + 1)];
    }
    if (n + 1) % CheckpointInterval == 0 {
      assert a[|b|] == done + [x];
      assert a == b + [done + [x]];
    } else {
      assert a == b;
    }
  }

  /** What the loop computes from any consistent intermediate state. */
  lemma {:induction false} StepSpec(i: nat, data: seq<Item>, env: Services, done: seq<Item>, writes: seq<seq<Item>>)
    requires |done| == i <= |data|
    requires forall k :: 0 <= k < i ==> EnrichItem(k, data[k], env) == Ok(done[k])
    requires writes == Snapshots(done)
    ensures var r := Step(i, data, env, done, writes);
      && !r.InputMissing?
      && (r.Completed? ==>
            && |r.output| == |data|
            && (forall k :: 0 <= k < |data| ==> EnrichItem(k, data[k], env) == Ok(r.output[k]))
            && r.writes == Checkpoints(r.output))
      && (r.Aborted? ==>
            && i <= r.at < |data|
            && EnrichItem(r.at, data[r.at], env) == Err(r.key)
            && |r.processed| == r.at
            && (forall k :: 0 <= k < r.at ==> EnrichItem(k, data[k], env) == Ok(r.processed[k]))
            && r.writes == Snapshots(r.processed))
    decreases |data| - i
  {
    if i < |data| {
      match EnrichItem(i, data[i], env)
      case Err(key) =>
      case Ok(item) =>
        var done' := done + [item];
        SnapshotsSnoc(done, item);
        StepSpec(i + 1, data, env, done',
                 if (i + 1) % CheckpointInterval == 0 then writes + [done'] else writes);
    }
  }

  /** `process_data`. Without the input file nothing is processed or
      written. Otherwise either every item is enriched, one output per input
      in input order, and the writes are the snapshots after every 50th item
      followed by the full output; or the first item whose key is missing
      stops the run, and the writes are the snapshots of the items before it. */
  function ProcessData(inputExists: bool, data: seq<Item>, env: Services): (r: Enrichment)
    ensures r.InputMissing? <==> !inputExists
    ensures r.Completed? ==>
              && |r.output| == |data|
              && (forall k :: 0 <= k < |data| ==> EnrichItem(k, data[k], env) == Ok(r.output[k]))
              && r.writes == Checkpoints(r.output)
    ensures r.Aborted? ==>
              && r.at < |data|
              && EnrichItem(r.at, data[r.at], env) == Err(r.key)
              && |r.processed| == r.at
              && (forall k :: 0 <= k < r.at ==> EnrichItem(k, data[k], env) == Ok(r.processed[k]))
              && r.writes == Snapshots(r.processed)
    ensures inputExists && (forall k :: 0 <= k < |data| ==> EnrichItem(k, data[k], env).Ok?) ==> r.Completed?
  {
    if !inputExists then InputMissing
    else
      StepSpec(0, data, env, [], []);
      Step(0, data, env, [], [])
  }

  /** Every output item is its input item with at most `content`,
      `image_description` and `generated_questions` changed. */
  lemma OutputKeepsIdentity(inputExists: bool, data: seq<Item>, env: Services, k: nat)
    requires ProcessData(inputExists, data, env).Completed? && k < |data|
    ensures SameExceptEnrichment(data[k], ProcessData(inputExists, data, env).output[k])
  {
    assert EnrichItem(k, data[k], env).Ok?;
  }

  /** A run over 120 items writes three times: after item 50, after item
      100, and the final write of all 120. */
  lemma CheckpointCadence(data: seq<Item>, env: Services)
    requires |data| == 120
    requires ProcessData(true, data, env).Completed?
    ensures var r := ProcessData(true, data, env);
            && |r.writes| == 3
            && |r.writes[0]| == 50 && |r.writes[1]| == 100 && |r.writes[2]| == 120
            && r.writes[2] == r.output
  {
    var r := ProcessData(true, data, env);
    assert r.writes == Snapshots(r.output) + [r.output];
  }

  /** A run stopped by a missing key has written every item before it except
      at most the last 49. */
  lemma AbortLosesLessThanInterval(inputExists: bool, data: seq<Item>, env: Services)
    requires ProcessData(inputExists, data, env).Aborted?
    ensures var r := ProcessData(inputExists, data, env);
            var saved := if |r.writes| == 0 then 0 else |r.writes[|r.writes| - 1]|;
            r.at - saved < CheckpointInterval
  {
  }
}

=== FILE: extractor.dfy ===
/**
  The document extractor (extractor.py): turns the body of a Word document
  into an ordered list of text and table records, names the image files it
  saves from the document's relationships, and appends one image record per
  listed file whose name starts with the document name. The Word parser and the file system are
  inputs: a document is its body children and its relationships, and the
  images directory is the listing `os.listdir` returns after the save.
*/
module Extractor {
  import opened Basics
  import opened Text
  import opened Paths

  const OutputDir := "processed_data"
  const ImagesDir := PathJoin(OutputDir, "images")

  /** A child element of the document body: a paragraph with its text, a
      table with the text of each cell row by row, or anything else
      (section properties, bookmarks, ...). */
  datatype Child = Paragraph(text: string) | Table(rows: seq<seq<string>>) | Other

  /** A package relationship of the document part: its id, its target
      reference, and whether reading its blob and writing the image file
      succeed (`false` stands for the exception that is reported and skipped). */
  datatype Relationship = Relationship(rId: string, targetRef: string, saved: bool)

  datatype Docx = Docx(body: seq<Child>, rels: seq<Relationship>)

  /** The type of an extracted record; only images carry a file path. */
  datatype Kind = TextBlock | TableBlock | ImageBlock(path: string)

  /** The `type` string written for each kind. */
  function Tag(k: Kind): string {
    match k
    case TextBlock => "text"
    case TableBlock => "table"
    case ImageBlock(_) => "image"
  }

  /** One extracted record: owning document, kind, and content. */
  datatype Record = Record(source: string, kind: Kind, content: string)

  /** The document identifier: the file's base name without extension, with
      spaces turned into underscores. */
  function DocName(path: string): (name: string)
    ensures ' ' !in name
    ensures '/' !in name
  {
    var root := SplitextRoot(Basename(path));
    assert forall k :: 0 <= k < |root| ==> root[k] == Basename(path)[k];
    ReplaceChar(root, ' ', '_')
  }

  /** A `.docx` file name whose stem has no slash and is not made of dots
      only is named after its stem, with spaces replaced. */
  lemma DocNameOfDocx(stem: string)
    requires '/' !in stem
    requires exists k :: 0 <= k < |stem| && stem[k] != '.'
    ensures DocName(stem + ".docx") == ReplaceChar(stem, ' ', '_')
  {
    var p := stem + ".docx";
    BasenameWithoutSlash(p);
    SplitextRootOfDocx(stem);
  }

  lemma BasenameWithoutSlash(p: string)
    requires '/' !in p
    ensures Basename(p) == p
  {
  }

  lemma SplitextRootOfDocx(stem: string)
    requires '/' !in stem
    requires exists k :: 0 <= k < |stem| && stem[k] != '.'
    ensures SplitextRoot(stem + ".docx") == stem
  {
    var p := stem + ".docx";
    var sep := LastIndexOf(p, '/');
    var dot := LastIndexOf(p, '.');
    assert '/' !in p;
    assert p[|stem|] == '.';
    assert forall k :: |stem| < k < |p| ==> p[k] != '.';
    var k :| 0 <= k < |stem| && stem[k] != '.';
    assert sep < k < dot && p[k] != '.';
    assert p[..dot] == stem;
  }

  /** Python's `iter_block_items` on a document: the paragraphs and tables
      of the body, in order; every other child is skipped. */
  function IterBlockItems(body: seq<Child>): (blocks: seq<Child>)
    ensures forall k :: 0 <= k < |blocks| ==> !blocks[k].Other?
    ensures |blocks| <= |body|
  {
    if |body| == 0 then []
    else (if body[0].Other? then [] else [body[0]]) + IterBlockItems(body[1..])
  }

  lemma {:induction false} IterBlockItemsAppend(a: seq<Child>, b: seq<Child>)
    ensures IterBlockItems(a + b) == IterBlockItems(a) + IterBlockItems(b)
  {
    if |a| > 0 {
      assert (a + b)[0] == a[0];
      assert (a + b)[1..] == a[1..] + b;
      IterBlockItemsAppend(a[1..], b);
    } else {
      assert a + b == b;
    }
  }

  /** A body made of paragraphs and tables only is iterated unchanged. */
  lemma {:induction false} IterBlockItemsKeepsBlocks(body: seq<Child>)
    requires forall k :: 0 <= k < |body| ==> !body[k].Other?
    ensures IterBlockItems(body) == body
  {
    if |body| > 0 {
      IterBlockItemsKeepsBlocks(body[1..]);
      assert [body[0]] + body[1..] == body;
    }
  }

  function StripCells(cells: seq<string>): seq<string> {
    seq(|cells|, k requires 0 <= k < |cells| => Strip(cells[k]))
  }

  /** One table row: its stripped cells joined by `" | "`. */
  function RowText(cells: seq<string>): string {
    Join(StripCells(cells), " | ")
  }

  function RowTexts(rows: seq<seq<string>>): seq<string> {
    seq(|rows|, k requires 0 <= k < |rows| => RowText(rows[k]))
  }

  /** A whole table: its rows joined by newlines. */
  function TableText(rows: seq<seq<string>>): string {
    Join(RowTexts(rows), "\n")
  }

  /** The record one body block yields, if any. */
  function BlockRecord(docName: string, block: Child): Option<Record> {
    match block
    case Paragraph(t) =>
      var text := Strip(t);
      if text != "" then Some(Record(docName, TextBlock, text)) else None
    case Table(rows) =>
      var text := TableText(rows);
      if Strip(text) != "" then Some(Record(docName, TableBlock, text)) else None
    case Other => None
  }

  function OptionSeq<T>(o: Option<T>): seq<T> {
    match o
    case Some(x) => [x]
    case None => []
  }

  /** The records of a sequence of blocks, appended in order. */
  function BlockRecords(docName: string, blocks: seq<Child>): (rs: seq<Record>)
    ensures |rs| <= |blocks|
    ensures forall k :: 0 <= k < |rs| ==> rs[k].source == docName && !rs[k].kind.ImageBlock?
  {
    if |blocks| == 0 then []
    else BlockRecords(docName, blocks[..|blocks| - 1]) + OptionSeq(BlockRecord(docName, blocks[|blocks| - 1]))
  }

  /** The text and table records of a document body. */
  function TextRecords(docName: string, body: seq<Child>): (rs: seq<Record>)
    ensures |rs| <= |body|
    ensures forall k :: 0 <= k < |rs| ==> rs[k].source == docName && !rs[k].kind.ImageBlock?
  {
    BlockRecords(docName, IterBlockItems(body))
  }

  /** A paragraph yields a record exactly when its text is not blank; the
      record holds the text without surrounding whitespace. */
  lemma ParagraphRecord(docName: string, text: string)
    ensures BlockRecord(docName, Paragraph(text)).Some? <==> !AllSpace(text)
    ensures BlockRecord(docName, Paragraph(text)).Some? ==>
              BlockRecord(docName, Paragraph(text)).value == Record(docName, TextBlock, Strip(text))
    ensures forall c :: c in Strip(text) ==> c in text
  {
    var pre, post := StripSplits(text);
  }

  /** A row serialises to blank text exactly when it has at most one cell and
      that cell is blank: with two cells or more the `" | "` separator shows. */
  predicate BlankRow(cells: seq<string>) {
    |cells| <= 1 && forall j :: 0 <= j < |cells| ==> AllSpace(cells[j])
  }

  lemma StripBlank(s: string)
    ensures AllSpace(Strip(s)) <==> AllSpace(s)
  {
  }

  lemma RowBlank(cells: seq<string>)
    ensures AllSpace(RowText(cells)) <==> BlankRow(cells)
  {
    var stripped := StripCells(cells);
    AllSpaceJoin(stripped, " | ");
    assert !IsSpace(" | "[1]);
    forall j | 0 <= j < |cells|
      ensures AllSpace(stripped[j]) <==> AllSpace(cells[j])
    {
      StripBlank(cells[j]);
    }
  }

  /** A table is dropped exactly when every row is blank; in particular a
      row of two or more cells, even empty ones, keeps the table. */
  lemma TableKept(docName: string, rows: seq<seq<string>>)
    ensures BlockRecord(docName, Table(rows)).Some? <==> exists k :: 0 <= k < |rows| && !BlankRow(rows[k])
    ensures BlockRecord(docName, Table(rows)).Some? ==>
              BlockRecord(docName, Table(rows)).value == Record(docName, TableBlock, TableText(rows))
  {
    var lines := RowTexts(rows);
    AllSpaceJoin(lines, "\n");
    forall k | 0 <= k < |rows|
      ensures AllSpace(lines[k]) <==> BlankRow(rows[k])
    {
      RowBlank(rows[k]);
    }
  }

  /** When no cell contains a line break, the table text has one line per
      row, in row order, and each line is that row's text. */
  lemma TableLines(rows: seq<seq<string>>)
    requires |rows| >= 1
    requires forall k, j :: 0 <= k < |rows| && 0 <= j < |rows[k]| ==> '\n' !in rows[k][j]
    ensures Split(TableText(rows), '\n') == RowTexts(rows)
    ensures |Split(TableText(rows), '\n')| == |rows|
  {
    var lines := RowTexts(rows);
    forall k | 0 <= k < |rows|
      ensures '\n' !in lines[k]
    {
      var stripped := StripCells(rows[k]);
      forall j | 0 <= j < |stripped|
        ensures '\n' !in stripped[j]
      {
        StripAvoids(rows[k][j], '\n');
      }
      JoinAvoids(stripped, " | ", '\n');
    }
    assert "\n" == ['\n'];
    SplitJoin(lines, '\n');
  }

  /** A table of two rows is the first row's text, a line break, and the
      second row's text. */
  lemma TwoRows(x: seq<string>, y: seq<string>)
    ensures TableText([x, y]) == RowText(x) + "\n" + RowText(y)
  {
    var lines := RowTexts([x, y]);
    assert |lines| == 2 && lines[0] == RowText(x) && lines[1] == RowText(y);
    assert lines == [lines[0], lines[1]];
    JoinTwo(lines[0], lines[1], "\n");
  }

  /** The table `[["A","B"],["C",""]]` serialises to `"A | B\nC | "`: two
      lines, the empty cell kept as an empty string after the separator.
      The cells are parameters pinned by the precondition, which keeps the
      verifier from unfolding the serialisation on literal arguments. */
  lemma TableExample(a: string, b: string, c: string, e: string)
    requires a == "A" && b == "B" && c == "C" && e == ""
    ensures TableText([[a, b], [c, e]]) == "A | B\nC | "
  {
    assert !IsSpace('A') && !IsSpace('B') && !IsSpace('C');
    TwoByTwo(a, b, c, e);
  }

  /** A table of two rows of two trimmed cells. */
  lemma TwoByTwo(a: string, b: string, c: string, e: string)
    requires Trimmed(a) && Trimmed(b) && Trimmed(c) && Trimmed(e)
    ensures TableText([[a, b], [c, e]]) == (a + " | " + b) + "\n" + (c + " | " + e)
  {
    TwoRows([a, b], [c, e]);
    RowOfTwo(a, b);
    RowOfTwo(c, e);
  }

  lemma JoinTwo(x: string, y: string, sep: string)
    ensures Join([x, y], sep) == x + sep + y
  {
    assert [x, y][1..] == [y];
  }

  /** Cells without surrounding whitespace are kept as they are. */
  lemma StripCellsTrimmed(cells: seq<string>)
    requires forall k :: 0 <= k < |cells| ==> Trimmed(cells[k])
    ensures StripCells(cells) == cells
  {
    forall k | 0 <= k < |cells|
      ensures StripCells(cells)[k] == cells[k]
    {
      StripTrimmed(cells[k]);
    }
  }

  /** A row of two cells without surrounding whitespace. */
  lemma RowOfTwo(x: string, y: string)
    requires Trimmed(x) && Trimmed(y)
    ensures RowText([x, y]) == x + " | " + y
  {
    StripCellsTrimmed([x, y]);
    JoinTwo(x, y, " | ");
  }

  lemma BlockRecordsSnoc(docName: string, a: seq<Child>, x: Child)
    ensures BlockRecords(docName, a + [x]) == BlockRecords(docName, a) + OptionSeq(BlockRecord(docName, x))
  {
    assert (a + [x])[..|a|] == a;
  }

  lemma {:induction false} BlockRecordsAppend(docName: string, a: seq<Child>, b: seq<Child>)
    ensures BlockRecords(docName, a + b) == BlockRecords(docName, a) + BlockRecords(docName, b)
    decreases |b|
  {
    if |b| == 0 {
      assert a + b == a;
    } else {
      var init, x := b[..|b| - 1], b[|b| - 1];
      assert b == init + [x];
      assert a + b == (a + init) + [x];
      var last := OptionSeq(BlockRecord(docName, x));
      calc {
        BlockRecords(docName, a + b);
      == { BlockRecordsSnoc(docName, a + init, x); }
        BlockRecords(docName, a + init) + last;
      == { BlockRecordsAppend(docName, a, init); }
        BlockRecords(docName, a) + BlockRecords(docName, init) + last;
      == { BlockRecordsSnoc(docName, init, x); }
        BlockRecords(docName, a) + BlockRecords(docName, b);
      }
    }
  }

  /** Text and table records keep the order of the body: the records of a
      body split in two are the records of each part, concatenated. */
  lemma TextRecordsAppend(docName: string, a: seq<Child>, b: seq<Child>)
    ensures TextRecords(docName, a + b) == TextRecords(docName, a) + TextRecords(docName, b)
  {
    IterBlockItemsAppend(a, b);
    BlockRecordsAppend(docName, IterBlockItems(a), IterBlockItems(b));
  }

  /** A single body child yields its block record, if any; a child that is
      neither a paragraph nor a table yields nothing. */
  lemma TextRecordsOfChild(docName: string, c: Child)
    ensures TextRecords(docName, [c]) == OptionSeq(BlockRecord(docName, c))
    ensures c.Other? ==> TextRecords(docName, [c]) == []
  {
    assert [c][1..] == [];
    if !c.Other? {
      assert IterBlockItems([c]) == [c];
      assert [c][..0] == [];
    }
  }

  /** The name under which the relationship at index `i` (counting every
      relationship of the part) is saved. */
  function ImageFileName(docName: string, i: nat): (name: string)
    ensures docName <= name
  {
    docName + "_img_" + Decimal(i) + ".png"
  }

  /** Different relationship indices never share a file name. */
  lemma ImageFileNamesDistinct(docName: string, i: nat, j: nat)
    requires i != j
    ensures ImageFileName(docName, i) != ImageFileName(docName, j)
  {
    if ImageFileName(docName, i) == ImageFileName(docName, j) {
      var a, b := ImageFileName(docName, i), ImageFileName(docName, j);
      var lo := |docName| + 5;
      assert a[lo..|a| - 4] == Decimal(i);
      assert b[lo..|b| - 4] == Decimal(j);
      DecimalInjective(i, j);
    }
  }

  predicate IsImageRelationship(rel: Relationship) {
    Contains(rel.targetRef, "image")
  }

  /** An image relationship whose file was written. */
  predicate Saved(rel: Relationship) {
    IsImageRelationship(rel) && rel.saved
  }

  /** `extract_images_from_doc`: the map from relationship id to the name of
      the image file saved for it. A relationship is in the map exactly when
      it targets an image and its file was written; the name records the
      relationship's position among all relationships. */
  function ExtractImages(docName: string, rels: seq<Relationship>): (m: map<string, string>)
    ensures forall id :: id in m <==> exists i :: 0 <= i < |rels| && rels[i].rId == id && Saved(rels[i])
    ensures forall id :: id in m ==>
      exists i :: 0 <= i < |rels| && rels[i].rId == id && Saved(rels[i]) && m[id] == ImageFileName(docName, i)
  {
    if |rels| == 0 then map[]
    else
      var i := |rels| - 1;
      var init := rels[..i];
      var m := ExtractImages(docName, init);
      assert forall j :: 0 <= j < i ==> init[j] == rels[j];
      if Saved(rels[i]) then m[rels[i].rId := ImageFileName(docName, i)] else m
  }

  predicate DistinctIds(rels: seq<Relationship>) {
    forall i, j :: 0 <= i < j < |rels| ==> rels[i].rId != rels[j].rId
  }

  /** With distinct relationship ids (the relationships of a part form a
      map keyed by id), every saved image relationship `i` is keyed by its
      id and named `{doc}_img_{i}.png`. */
  lemma ExtractImagesByIndex(docName: string, rels: seq<Relationship>, i: nat)
    requires DistinctIds(rels)
    requires i < |rels| && Saved(rels[i])
    ensures rels[i].rId in ExtractImages(docName, rels)
    ensures ExtractImages(docName, rels)[rels[i].rId] == ImageFileName(docName, i)
  {
    var m := ExtractImages(docName, rels);
    var id := rels[i].rId;
    assert id in m;
    var j :| 0 <= j < |rels| && rels[j].rId == id && Saved(rels[j]) && m[id] == ImageFileName(docName, j);
    assert j == i;
  }

  /** The record appended for an image file of the document. */
  function ImageRecord(docName: string, name: string): Record {
    Record(docName, ImageBlock(PathJoin(ImagesDir, name)), "Image File: " + name)
  }

  /** An image file name from a directory listing has no slash, so its
      record points into the images directory. */
  lemma ImageRecordPath(docName: string, name: string)
    requires '/' !in name
    ensures ImageRecord(docName, name).kind.path == "processed_data/images/" + name
    ensures ImageRecord(docName, name).content == "Image File: " + name
  {
    assert |name| > 0 ==> name[0] != '/';
  }

  /** The image records of a document: one per listed file whose name starts
      with the document name, in listing order. */
  function ImageRecords(docName: string, listing: seq<string>): (rs: seq<Record>)
    ensures |rs| <= |listing|
    ensures forall k :: 0 <= k < |rs| ==> rs[k].source == docName && rs[k].kind.ImageBlock?
  {
    if |listing| == 0 then []
    else
      (if docName <= listing[0] then [ImageRecord(docName, listing[0])] else [])
      + ImageRecords(docName, listing[1..])
  }

  /** Image records of a concatenated listing are the records of each part,
      in order: the listing order is kept and no record is added or lost. */
  lemma {:induction false} ImageRecordsAppend(docName: string, a: seq<string>, b: seq<string>)
    ensures ImageRecords(docName, a + b) == ImageRecords(docName, a) + ImageRecords(docName, b)
  {
    if |a| > 0 {
      assert (a + b)[1..] == a[1..] + b;
      ImageRecordsAppend(docName, a[1..], b);
    } else {
      assert a + b == b;
    }
  }

  /** One listed file yields exactly one record when its name starts with the
      document name, and none otherwise. */
  lemma ImageRecordsOfFile(docName: string, name: string)
    ensures ImageRecords(docName, [name]) == if docName <= name then [ImageRecord(docName, name)] else []
  {
  }

  /** A file gets an image record exactly when it is listed and its name
      starts with the document name. */
  lemma {:induction false} ImageRecordsIff(docName: string, listing: seq<string>, name: string)
    ensures ImageRecord(docName, name) in ImageRecords(docName, listing)
            <==> name in listing && docName <= name
  {
    if |listing| > 0 {
      ImageRecordsIff(docName, listing[1..], name);
      var head := if docName <= listing[0] then [ImageRecord(docName, listing[0])] else [];
      assert ImageRecords(docName, listing) == head + ImageRecords(docName, listing[1..]);
      assert listing == [listing[0]] + listing[1..];
      if ImageRecord(docName, name) in head {
        assert "Image File: " + name == "Image File: " + listing[0];
        assert name == ("Image File: " + name)[12..];
      }
    }
  }

  /** `process_docx` on one present file: the text and table records of the
      body in document order, then the image records. */
  function ProcessDocx(path: string, doc: Docx, listing: seq<string>): (rs: seq<Record>)
    ensures forall k :: 0 <= k < |rs| ==> rs[k].source == DocName(path)
    ensures |rs| <= |doc.body| + |listing|
  {
    var name := DocName(path);
    TextRecords(name, doc.body) + ImageRecords(name, listing)
  }

  /** Image records come after every text and table record: once an image
      record appears, all later records are images too. */
  lemma ImagesComeLast(path: string, doc: Docx, listing: seq<string>)
    ensures var rs := ProcessDocx(path, doc, listing);
            forall i, j | 0 <= i < j < |rs| && rs[i].kind.ImageBlock? :: rs[j].kind.ImageBlock?
  {
    var name := DocName(path);
    var texts: seq<Record> := TextRecords(name, doc.body);
    var images: seq<Record> := ImageRecords(name, listing);
    forall i, j | 0 <= i < j < |texts + images| && (texts + images)[i].kind.ImageBlock?
      ensures (texts + images)[j].kind.ImageBlock?
    {
      ImagesAfterTexts(texts, images, i, j);
    }
  }

  lemma ImagesAfterTexts(texts: seq<Record>, images: seq<Record>, i: nat, j: nat)
    requires forall k :: 0 <= k < |texts| ==> !texts[k].kind.ImageBlock?
    requires forall k :: 0 <= k < |images| ==> images[k].kind.ImageBlock?
    requires i < j < |texts + images| && (texts + images)[i].kind.ImageBlock?
    ensures (texts + images)[j].kind.ImageBlock?
  {
    assert forall k :: 0 <= k < |texts| ==> (texts + images)[k] == texts[k];
    assert (texts + images)[j] == images[j - |texts|];
  }

  /** Every image the extraction saved gets a record, provided the directory
      listing shows the saved files. */
  lemma SavedImagesAreRecorded(path: string, doc: Docx, listing: seq<string>, i: nat)
    requires DistinctIds(doc.rels)
    requires i < |doc.rels| && Saved(doc.rels[i])
    requires forall id :: id in ExtractImages(DocName(path), doc.rels) ==>
               ExtractImages(DocName(path), doc.rels)[id] in listing
    ensures ImageRecord(DocName(path), ImageFileName(DocName(path), i)) in ProcessDocx(path, doc, listing)
  {
    var name := DocName(path);
    ExtractImagesByIndex(name, doc.rels, i);
    ImageRecordsIff(name, listing, ImageFileName(name, i));
  }

  /** A document of the batch: absent, or present with its parsed content and
      the listing of the images directory after its images were saved. */
  datatype SourceFile = Missing(path: string) | Present(path: string, doc: Docx, listing: seq<string>)

  function FileRecords(f: SourceFile): seq<Record> {
    match f
    case Missing(_) => []
    case Present(path, doc, listing) => ProcessDocx(path, doc, listing)
  }

  /** `main`: the records of every present file, concatenated in list order. */
  function ExtractAll(files: seq<SourceFile>): seq<Record> {
    if |files| == 0 then []
    else ExtractAll(files[..|files| - 1]) + FileRecords(files[|files| - 1])
  }

  /** Every record of the batch comes from a present file and bears that
      file's document name. */
  lemma {:induction false} ExtractAllProvenance(files: seq<SourceFile>, k: nat)
    requires k < |ExtractAll(files)|
    ensures exists f :: f in files && f.Present? && ExtractAll(files)[k].source == DocName(f.path)
  {
    var init := ExtractAll(files[..|files| - 1]);
    var last := files[|files| - 1];
    if k < |init| {
      ExtractAllProvenance(files[..|files| - 1], k);
      var f :| f in files[..|files| - 1] && f.Present? && init[k].source == DocName(f.path);
      assert f in files;
    } else {
      assert ExtractAll(files)[k] == FileRecords(last)[k - |init|];
      assert last in files;
    }
  }

  lemma {:induction false} ExtractAllAppend(a: seq<SourceFile>, b: seq<SourceFile>)
    ensures ExtractAll(a + b) == ExtractAll(a) + ExtractAll(b)
    decreases |b|
  {
    if |b| > 0 {
      assert (a + b)[..|a + b| - 1] == a + b[..|b| - 1];
      ExtractAllAppend(a, b[..|b| - 1]);
    } else {
      assert a + b == a;
    }
  }

  /** A missing file contributes nothing to the batch. */
  lemma ExtractAllSkipsMissing(a: seq<SourceFile>, path: string, b: seq<SourceFile>)
    ensures ExtractAll(a + [Missing(path)] + b) == ExtractAll(a + b)
  {
    ExtractAllAppend(a + [Missing(path)], b);
    ExtractAllAppend(a, b);
    assert (a + [Missing(path)])[..|a|] == a;
    assert ExtractAll(a + [Missing(path)]) == ExtractAll(a);
  }
}

=== FILE: indexer.dfy ===
/**
  The index builder (indexer.py, `build_index`): one index document per
  enriched record, whose text is the content followed by the generated
  questions under a label, and whose metadata names the source, the type
  and, for images, the file. Embedding and the vector store are left to the
  caller: the model returns the documents handed to them.
*/
module Indexer {
  import opened Basics
  import opened Text
  import opened Items

  const QuestionsLabel := "\n\nRelated Questions:\n"
  const UnknownSource := "Unknown File"
  const DefaultType := "Section"

  /** The unit given to the embedder: payload text and a string metadata map. */
  datatype IndexDocument = IndexDocument(text: string, metadata: map<string, string>)

  /** The first present value among `candidates`, or `default` when none is. */
  function FirstPresent(candidates: seq<Option<string>>, default: string): (r: string)
    ensures (forall k :: 0 <= k < |candidates| ==> candidates[k].None?) ==> r == default
    ensures forall k | 0 <= k < |candidates| && candidates[k].Some?
                       && (forall j :: 0 <= j < k ==> candidates[j].None?) :: r == candidates[k].value
  {
    if |candidates| == 0 then default
    else match candidates[0]
      case Some(v) => v
      case None => FirstPresent(candidates[1..], default)
  }

  /** The `source` metadata: `source`, else `file_name`, else "Unknown File". */
  function SourceOf(item: Item): (s: string)
    ensures s == FirstPresent([item.source, item.fileName], UnknownSource)
  {
    item.source.GetOr(item.fileName.GetOr(UnknownSource))
  }

  /** The `type` metadata: `type`, else `section_title`, else "Section". */
  function TypeOf(item: Item): (t: string)
    ensures t == FirstPresent([item.typeTag, item.sectionTitle], DefaultType)
  {
    item.typeTag.GetOr(item.sectionTitle.GetOr(DefaultType))
  }

  /** The questions as text: a list is joined with newlines. */
  function QuestionsText(q: Questions): string {
    match q
    case Raw(t) => t
    case Listed(lines) => Join(lines, "\n")
  }

  /** The payload: the content (empty when absent), followed by the label and
      the questions when the record has questions. */
  function Payload(item: Item): (p: string)
    ensures item.generatedQuestions.None? ==> p == item.content.GetOr("")
    ensures item.content.GetOr("") <= p
    ensures item.generatedQuestions.Some? ==>
              p[|item.content.GetOr("")|..] == QuestionsLabel + QuestionsText(item.generatedQuestions.value)
  {
    var text := item.content.GetOr("");
    match item.generatedQuestions
    case None => text
    case Some(q) =>
      assert (text + QuestionsLabel + QuestionsText(q))[|text|..] == QuestionsLabel + QuestionsText(q);
      text + QuestionsLabel + QuestionsText(q)
  }

  /** The metadata: exactly `source` and `type`, plus `image_path` when the
      record has one. */
  function Metadata(item: Item): (m: map<string, string>)
    ensures m.Keys == {"source", "type"} + (if item.imagePath.Some? then {"image_path"} else {})
    ensures m["source"] == SourceOf(item) && m["type"] == TypeOf(item)
    ensures item.imagePath.Some? ==> m["image_path"] == item.imagePath.value
  {
    var base := map["source" := SourceOf(item), "type" := TypeOf(item)];
    if item.imagePath.Some? then base["image_path" := item.imagePath.value] else base
  }

  function ToDocument(item: Item): IndexDocument {
    IndexDocument(Payload(item), Metadata(item))
  }

  /** The documents list, one appended per record in order. */
  function Documents(data: seq<Item>): (docs: seq<IndexDocument>)
    ensures |docs| == |data|
    ensures forall k :: 0 <= k < |data| ==> docs[k] == ToDocument(data[k])
  {
    if |data| == 0 then []
    else Documents(data[..|data| - 1]) + [ToDocument(data[|data| - 1])]
  }

  /** `build_index`: nothing (and no collection) when the enriched file is
      missing, otherwise exactly one document per record, in order. */
  function BuildIndex(enrichedExists: bool, data: seq<Item>): (r: Option<seq<IndexDocument>>)
    ensures r.None? <==> !enrichedExists
    ensures r.Some? ==> |r.value| == |data|
    ensures r.Some? ==> forall k :: 0 <= k < |data| ==> r.value[k] == ToDocument(data[k])
  {
    if !enrichedExists then None else Some(Documents(data))
  }

  /** A hand-written record without `source` and `type` is described by its
      `file_name` and `section_title`. */
  lemma HandWrittenMetadata(item: Item, f: string, t: string)
    requires item.source.None? && item.fileName == Some(f)
    requires item.typeTag.None? && item.sectionTitle == Some(t)
    ensures Metadata(item)["source"] == f && Metadata(item)["type"] == t
  {
  }

  /** When no listed question contains a line break, the part of the payload
      after the label splits back into the listed questions. */
  lemma ListedQuestionsRecoverable(item: Item)
    requires item.generatedQuestions.Some? && item.generatedQuestions.value.Listed?
    requires var ls := item.generatedQuestions.value.lines;
             |ls| >= 1 && forall k :: 0 <= k < |ls| ==> '\n' !in ls[k]
    ensures var n := |item.content.GetOr("")| + |QuestionsLabel|;
            Split(Payload(item)[n..], '\n') == item.generatedQuestions.value.lines
  {
    var ls := item.generatedQuestions.value.lines;
    var text := item.content.GetOr("");
    var p := Payload(item);
    assert p[|text|..] == QuestionsLabel + Join(ls, "\n");
    assert p[|text| + |QuestionsLabel|..] == (QuestionsLabel + Join(ls, "\n"))[|QuestionsLabel|..];
    assert "\n" == ['\n'];
    SplitJoin(ls, '\n');
  }
}

=== FILE: items.dfy ===
/**
  The JSON records the offline stages hand to each other. Every key is
  optional, since the enricher and the index builder read records with
  `dict.get` and hand-written records use other keys (`file_name`,
  `section_title`) than extracted ones (`source`, `type`). `None` stands for
  an absent key.
*/
module Items {
  import opened Basics

  /** The `generated_questions` value: the raw model output, or a list of
      questions in hand-written records. */
  datatype Questions = Raw(text: string) | Listed(lines: seq<string>)

  /** One record; `typeTag` is the JSON key `type`. */
  datatype Item = Item(
    source: Option<string>,
    fileName: Option<string>,
    typeTag: Option<string>,
    sectionTitle: Option<string>,
    content: Option<string>,
    imagePath: Option<string>,
    imageDescription: Option<string>,
    generatedQuestions: Option<Questions>)

  /** `b` agrees with `a` on every key except the three the enricher may
      write: `content`, `image_description` and `generated_questions`. */
  predicate SameExceptEnrichment(a: Item, b: Item) {
    b == a.(content := b.content, imageDescription := b.imageDescription,
            generatedQuestions := b.generatedQuestions)
  }
}

=== FILE: paths.dfy ===
/**
  The POSIX behaviour of the three `os.path` functions the extractor uses to
  name documents and image files: `basename`, the root half of `splitext`,
  and `join`.
*/
module Paths {

  /** Python's `s.rfind(c)`: the last index holding `c`, or -1. */
  function LastIndexOf(s: string, c: char): (i: int)
    ensures -1 <= i < |s|
    ensures i >= 0 ==> s[i] == c
    ensures forall k :: i < k < |s| ==> s[k] != c
  {
    if |s| == 0 then -1
    else if s[|s| - 1] == c then |s| - 1
    else LastIndexOf(s[..|s| - 1], c)
  }

  /** `os.path.basename(p)`: everything after the last `/`. */
  function Basename(p: string): (b: string)
    ensures '/' !in b
    ensures |b| <= |p| && b == p[|p| - |b|..]
  {
    p[LastIndexOf(p, '/') + 1..]
  }

  /** The base name starts right after the last `/`: it is the whole path,
      or the character before it is a slash. */
  lemma BasenameAfterLastSlash(p: string)
    ensures var b := Basename(p);
            |b| == |p| || p[|p| - |b| - 1] == '/'
  {
  }

  /** `os.path.splitext(p)[0]`: `p` without its extension, where the
      extension starts at the last dot of the last path component, provided
      that dot is preceded in the component by something other than dots
      (so `.bashrc` has no extension). */
  function SplitextRoot(p: string): (root: string)
    ensures root <= p
  {
    var sep := LastIndexOf(p, '/');
    var dot := LastIndexOf(p, '.');
    if dot > sep && exists k :: sep < k < dot && p[k] != '.' then p[..dot] else p
  }

  /** What `SplitextRoot` removes is an extension: either nothing, or a dot
      followed by neither dots nor slashes, where the dot is preceded in its
      path component by something other than a dot. */
  lemma SplitextRootCutsExtension(p: string)
    ensures var root := SplitextRoot(p);
            || root == p
            || (&& |root| < |p|
                && p[|root|] == '.'
                && '.' !in p[|root| + 1..] && '/' !in p[|root| + 1..]
                && exists k :: LastIndexOf(p, '/') < k < |root| && p[k] != '.')
  {
    var sep := LastIndexOf(p, '/');
    var dot := LastIndexOf(p, '.');
    if dot > sep && exists k :: sep < k < dot && p[k] != '.' {
      var rest := p[dot + 1..];
      assert forall k :: 0 <= k < |rest| ==> rest[k] == p[dot + 1 + k];
    }
  }

  /** Conversely, a path whose last component has a dot preceded by a
      non-dot character loses its extension: the root ends just before the
      last dot of the path. */
  lemma SplitextCutsWhenExtension(p: string, d: nat, k: nat)
    requires LastIndexOf(p, '/') < k < d < |p| && p[d] == '.' && p[k] != '.'
    ensures SplitextRoot(p) != p
    ensures SplitextRoot(p) == p[..LastIndexOf(p, '.')]
  {
  }

  /** `os.path.join(a, b)` for two components. */
  function PathJoin(a: string, b: string): string {
    if |b| > 0 && b[0] == '/' then b
    else if |a| == 0 || a[|a| - 1] == '/' then a + b
    else a + "/" + b
  }
}

=== FILE: pipeline.dfy ===
/**
  The three offline stages composed: the records written by the extractor
  are read back by the enricher, and the enriched records are read by the
  index builder. These lemmas state what survives from one end to the
  other.
*/
module Pipeline {
  import opened Basics
  import opened Items
  import Extractor
  import Enricher
  import Indexer

  /** An extracted record as the next stage reads it back from JSON: keys
      `source`, `type` and `content`, plus `image_path` for an image. */
  function ToItem(r: Extractor.Record): (item: Item)
    ensures item.source == Some(r.source) && item.content == Some(r.content)
    ensures item.typeTag == Some(Extractor.Tag(r.kind))
    ensures item.imagePath.Some? <==> r.kind.ImageBlock?
    ensures r.kind.ImageBlock? ==> item.imagePath == Some(r.kind.path)
    ensures item.fileName.None? && item.sectionTitle.None?
    ensures item.imageDescription.None? && item.generatedQuestions.None?
  {
    var path := match r.kind
      case ImageBlock(p) => Some(p)
      case _ => None;
    Item(Some(r.source), None, Some(Extractor.Tag(r.kind)), None, Some(r.content), path, None, None)
  }

  function ToItems(rs: seq<Extractor.Record>): (items: seq<Item>)
    ensures |items| == |rs|
    ensures forall k :: 0 <= k < |rs| ==> items[k] == ToItem(rs[k])
  {
    seq(|rs|, k requires 0 <= k < |rs| => ToItem(rs[k]))
  }

  /** The metadata an extracted record should carry into the index. */
  function Provenance(r: Extractor.Record): map<string, string> {
    var base := map["source" := r.source, "type" := Extractor.Tag(r.kind)];
    match r.kind
    case ImageBlock(p) => base["image_path" := p]
    case _ => base
  }

  /** Extracted records always carry `type` and `content`, so enriching
      them never aborts. */
  lemma ExtractedRecordsComplete(rs: seq<Extractor.Record>, env: Enricher.Services)
    ensures Enricher.ProcessData(true, ToItems(rs), env).Completed?
  {
    var items := ToItems(rs);
    forall k | 0 <= k < |items|
      ensures Enricher.EnrichItem(k, items[k], env).Ok?
    {
      assert items[k] == ToItem(rs[k]);
    }
  }

  /** After enrichment and indexing, the k-th index document of an
      extraction batch is described by exactly the source, type and image
      path of the k-th extracted record. */
  lemma IndexProvenance(rs: seq<Extractor.Record>, env: Enricher.Services, k: nat)
    requires k < |rs|
    ensures var e := Enricher.ProcessData(true, ToItems(rs), env);
            && e.Completed?
            && var index := Indexer.BuildIndex(true, e.output);
            && index.Some? && |index.value| == |rs|
            && index.value[k].metadata == Provenance(rs[k])
  {
    ExtractedRecordsComplete(rs, env);
    var items := ToItems(rs);
    var e := Enricher.ProcessData(true, items, env);
    Enricher.OutputKeepsIdentity(true, items, env, k);
    var out := e.output[k];
    assert items[k] == ToItem(rs[k]);
    assert out.source == Some(rs[k].source) && out.typeTag == Some(Extractor.Tag(rs[k].kind));
    assert out.imagePath == items[k].imagePath;
    var m := Indexer.Metadata(out);
    assert m.Keys == Provenance(rs[k]).Keys;
  }

  /** A table record, and a text record of at most 100 characters, reach
      the index with their extracted content as the whole payload. */
  lemma ShortRecordsIndexedVerbatim(rs: seq<Extractor.Record>, env: Enricher.Services, k: nat)
    requires k < |rs|
    requires rs[k].kind.TableBlock? || (rs[k].kind.TextBlock? && |rs[k].content| <= Enricher.QuestionThreshold)
    ensures var e := Enricher.ProcessData(true, ToItems(rs), env);
            && e.Completed?
            && Indexer.Payload(e.output[k]) == rs[k].content
  {
    ExtractedRecordsComplete(rs, env);
    var items := ToItems(rs);
    var e := Enricher.ProcessData(true, items, env);
    assert items[k] == ToItem(rs[k]);
    assert Enricher.EnrichItem(k, items[k], env) == Ok(items[k]);
  }

  /** End to end: every document indexed from an extraction batch names, as
      its source, the document name of one of the batch's present files. */
  lemma IndexedSourcesAreDocuments(files: seq<Extractor.SourceFile>, env: Enricher.Services, k: nat)
    requires k < |Extractor.ExtractAll(files)|
    ensures var e := Enricher.ProcessData(true, ToItems(Extractor.ExtractAll(files)), env);
            && e.Completed?
            && var index := Indexer.BuildIndex(true, e.output);
            && index.Some?
            && exists f :: f in files && f.Present?
                           && index.value[k].metadata["source"] == Extractor.DocName(f.path)
  {
    var rs := Extractor.ExtractAll(files);
    IndexProvenance(rs, env, k);
    Extractor.ExtractAllProvenance(files, k);
  }
}

=== FILE: text.dfy ===
/**
  The handful of Python string operations the pipeline relies on, with the
  meaning they have in CPython: `str.isspace`, `str.strip`, `sep.join`,
  `str.split(c)`, `sub in s`, `str.replace` of one character, `s[:n]` and
  `str(n)` for a natural number. Strings are sequences of Unicode scalar
  values, which is what Python's `len` and slicing count.
*/
module Text {
  import opened Basics

  /** Python's `str.isspace()` for one character: the ASCII controls
      TAB..CR and FS..US, SPACE, NEL, NBSP and the Unicode space separators. */
  predicate IsSpace(c: char) {
    || c == ' '
    || ('\t' <= c <= '\r')
    || ('\U{1C}' <= c <= '\U{1F}')
    || c == '\U{85}'
    || c == '\U{A0}'
    || c == '\U{1680}'
    || ('\U{2000}' <= c <= '\U{200A}')
    || c == '\U{2028}'
    || c == '\U{2029}'
    || c == '\U{202F}'
    || c == '\U{205F}'
    || c == '\U{3000}'
  }

  predicate AllSpace(s: string) {
    forall k :: 0 <= k < |s| ==> IsSpace(s[k])
  }

  lemma AllSpaceConcat(a: string, b: string)
    ensures AllSpace(a + b) <==> AllSpace(a) && AllSpace(b)
  {
    if AllSpace(a) && AllSpace(b) {
      forall k | 0 <= k < |a + b|
        ensures IsSpace((a + b)[k])
      {
        if k >= |a| {
          assert (a + b)[k] == b[k - |a|];
        }
      }
    }
    if AllSpace(a + b) {
      forall k | 0 <= k < |a|
        ensures IsSpace(a[k])
      {
        assert (a + b)[k] == a[k];
      }
      forall k | 0 <= k < |b|
        ensures IsSpace(b[k])
      {
        assert (a + b)[|a| + k] == b[k];
      }
    }
  }

  /** Number of whitespace characters at the start of `s`. */
  function LeadingSpaces(s: string): (n: nat)
    ensures n <= |s|
    ensures AllSpace(s[..n])
    ensures n < |s| ==> !IsSpace(s[n])
  {
    if |s| == 0 || !IsSpace(s[0]) then 0
    else
      var m := LeadingSpaces(s[1..]);
      assert s[..1 + m] == [s[0]] + s[1..][..m];
      AllSpaceConcat([s[0]], s[1..][..m]);
      1 + m
  }

  /** Number of whitespace characters just before position `e` of `s`. */
  function SpacesBefore(s: string, e: nat): (n: nat)
    requires e <= |s|
    ensures n <= e
    ensures forall k :: e - n <= k < e ==> IsSpace(s[k])
    ensures n < e ==> !IsSpace(s[e - n - 1])
  {
    if e == 0 || !IsSpace(s[e - 1]) then 0
    else 1 + SpacesBefore(s, e - 1)
  }

  /** Number of whitespace characters at the end of `s`. */
  function TrailingSpaces(s: string): (n: nat)
    ensures n <= |s|
    ensures AllSpace(s[|s| - n..])
    ensures n < |s| ==> !IsSpace(s[|s| - n - 1])
  {
    var n := SpacesBefore(s, |s|);
    var tail := s[|s| - n..];
    assert forall k :: 0 <= k < |tail| ==> tail[k] == s[|s| - n + k];
    n
  }

  /** Python's `s.strip()`: the result is empty exactly when `s` is all
      whitespace, and otherwise begins and ends with a non-space character. */
  function Strip(s: string): (r: string)
    ensures |r| <= |s|
    ensures r == [] <==> AllSpace(s)
    ensures r != [] ==> !IsSpace(r[0]) && !IsSpace(r[|r| - 1])
  {
    var e := |s| - TrailingSpaces(s);
    var t := s[..e];
    var b := LeadingSpaces(t);
    assert s == t + s[e..];
    AllSpaceConcat(t, s[e..]);
    assert b == |t| ==> t == t[..b];
    t[b..]
  }

  /** `Strip` removes nothing but whitespace, from both ends. */
  lemma StripSplits(s: string) returns (pre: string, post: string)
    ensures s == pre + Strip(s) + post
    ensures AllSpace(pre) && AllSpace(post)
  {
    var e := |s| - TrailingSpaces(s);
    var t := s[..e];
    var b := LeadingSpaces(t);
    pre := t[..b];
    post := s[e..];
    assert t == pre + t[b..];
    assert s == t + post;
  }

  /** No whitespace at either end. */
  predicate Trimmed(s: string) {
    s == [] || (!IsSpace(s[0]) && !IsSpace(s[|s| - 1]))
  }

  /** A string without surrounding whitespace is left alone by `Strip`. */
  lemma StripTrimmed(s: string)
    requires Trimmed(s)
    ensures Strip(s) == s
  {
  }

  lemma StripIdempotent(s: string)
    ensures Strip(Strip(s)) == Strip(s)
  {
    StripTrimmed(Strip(s));
  }

  /** Python's `sep.join(parts)`. */
  function Join(parts: seq<string>, sep: string): string {
    if |parts| == 0 then ""
    else if |parts| == 1 then parts[0]
    else parts[0] + sep + Join(parts[1..], sep)
  }

  /** A join is blank exactly when every part is blank and, if there is
      more than one part, the separator is blank too. */
  lemma {:induction false} AllSpaceJoin(parts: seq<string>, sep: string)
    ensures AllSpace(Join(parts, sep))
            <==> (forall k :: 0 <= k < |parts| ==> AllSpace(parts[k]))
                 && (|parts| <= 1 || AllSpace(sep))
  {
    if |parts| > 1 {
      var rest := parts[1..];
      AllSpaceJoin(rest, sep);
      AllSpaceConcat(parts[0], sep);
      AllSpaceConcat(parts[0] + sep, Join(rest, sep));
      assert forall k :: 1 <= k < |parts| ==> parts[k] == rest[k - 1];
    }
  }

  /** Python's `s.split(c)` for a one-character separator: always at least
      one piece, and no piece contains the separator. */
  function Split(s: string, c: char): (r: seq<string>)
    ensures |r| >= 1
    ensures forall k :: 0 <= k < |r| ==> c !in r[k]
  {
    if |s| == 0 then [""]
    else
      var rest := Split(s[1..], c);
      if s[0] == c then [""] + rest
      else [[s[0]] + rest[0]] + rest[1..]
  }

  lemma {:induction false} SplitWithoutSeparator(p: string, c: char)
    requires c !in p
    ensures Split(p, c) == [p]
  {
    if |p| > 0 {
      SplitWithoutSeparator(p[1..], c);
      assert [p[0]] + p[1..] == p;
    }
  }

  lemma {:induction false} SplitAfterPiece(p: string, t: string, c: char)
    requires c !in p
    ensures Split(p + [c] + t, c) == [p] + Split(t, c)
  {
    var s := p + [c] + t;
    if |p| == 0 {
      assert s[0] == c && s[1..] == t;
    } else {
      assert s[0] == p[0] && s[1..] == p[1..] + [c] + t;
      SplitAfterPiece(p[1..], t, c);
      assert [p[0]] + p[1..] == p;
    }
  }

  /** A character in neither the parts nor the separator is not in the join. */
  lemma {:induction false} JoinAvoids(parts: seq<string>, sep: string, c: char)
    requires forall k :: 0 <= k < |parts| ==> c !in parts[k]
    requires c !in sep
    ensures c !in Join(parts, sep)
  {
    if |parts| > 1 {
      JoinAvoids(parts[1..], sep, c);
      assert c !in parts[1..][0];
    }
  }

  /** A character absent from `s` is absent from `Strip(s)`. */
  lemma StripAvoids(s: string, c: char)
    requires c !in s
    ensures c !in Strip(s)
  {
    var pre, post := StripSplits(s);
    assert forall k :: 0 <= k < |Strip(s)| ==> Strip(s)[k] == s[|pre| + k];
  }

  /** Splitting a join on its one-character separator gives the parts back,
      provided no part contains the separator. */
  lemma {:induction false} SplitJoin(parts: seq<string>, c: char)
    requires |parts| >= 1
    requires forall k :: 0 <= k < |parts| ==> c !in parts[k]
    ensures Split(Join(parts, [c]), c) == parts
  {
    if |parts| == 1 {
      SplitWithoutSeparator(parts[0], c);
    } else {
      var rest := parts[1..];
      SplitAfterPiece(parts[0], Join(rest, [c]), c);
      SplitJoin(rest, c);
      assert [parts[0]] + rest == parts;
    }
  }

  /** Python's `sub in s`. */
  predicate Contains(s: string, sub: string)
    decreases |s|
  {
    sub <= s || (|s| > 0 && Contains(s[1..], sub))
  }

  /** Python's `s.replace(a, b)` for single characters. */
  function ReplaceChar(s: string, a: char, b: char): (r: string)
    ensures |r| == |s|
    ensures forall k :: 0 <= k < |s| ==> r[k] == (if s[k] == a then b else s[k])
  {
    if |s| == 0 then ""
    else [if s[0] == a then b else s[0]] + ReplaceChar(s[1..], a, b)
  }

  /** Python's `s[:n]`. */
  function Truncate(s: string, n: nat): string {
    if |s| <= n then s else s[..n]
  }

  predicate IsDigit(c: char) {
    '0' <= c <= '9'
  }

  function DigitChar(d: nat): (c: char)
    requires d < 10
    ensures IsDigit(c)
  {
    ('0' as int + d) as char
  }

  function DigitValue(c: char): nat
    requires IsDigit(c)
  {
    c as int - '0' as int
  }

  /** Python's `str(n)` (equivalently `f"{n}"`) for a natural number. */
  function Decimal(n: nat): (r: string)
    ensures |r| >= 1
    ensures forall k :: 0 <= k < |r| ==> IsDigit(r[k])
    ensures |r| > 1 ==> r[0] != '0'
  {
    if n < 10 then [DigitChar(n)]
    else Decimal(n / 10) + [DigitChar(n % 10)]
  }

  /** Python's `int(s)` on a string of decimal digits. */
  function ParseDecimal(s: string): nat
    requires forall k :: 0 <= k < |s| ==> IsDigit(s[k])
  {
    if |s| == 0 then 0
    else 10 * ParseDecimal(s[..|s| - 1]) + DigitValue(s[|s| - 1])
  }

  lemma {:induction false} DecimalRoundTrip(n: nat)
    ensures ParseDecimal(Decimal(n)) == n
  {
    var r := Decimal(n);
    if n >= 10 {
      DecimalRoundTrip(n / 10);
      assert r[..|r| - 1] == Decimal(n / 10);
    }
  }

  /** Distinct numbers print differently. */
  lemma DecimalInjective(m: nat, n: nat)
    requires Decimal(m) == Decimal(n)
    ensures m == n
  {
    DecimalRoundTrip(m);
    DecimalRoundTrip(n);
  }
}
